=== FILE: README.md ===
# TaskIsolatedEnv override resolution, modelled in Dafny

TaskIsolatedEnv lets code read an "environment" value (a clock, a client, a
formatter bundle) through one call, `currentTaskIsolatedEnv`, while tests
substitute values in two layers:

- a **task-local snapshot**, a dictionary from environment type to value
  bound with `@TaskLocal`. `withTaskIsolatedEnv` copies it with one entry
  replaced, runs a body under the copy, and the previous snapshot is back
  when the body ends, whether it returned or threw;
- a **prepared registry**, a process-wide dictionary guarded by a lock.
  `prepareTaskIsolatedEnv` writes the live value passed through a mutation,
  and `resetPreparedTaskIsolatedEnv(s)` removes one entry or all of them.

A read takes the task-local entry if there is one, else the prepared entry,
else the type's `liveValue`. In a release build a read consults neither
layer and yields the live value.

The model is functional. Environment types are an abstract key type `K`,
values an opaque type `V`, and a type's live value is a function
`live: K -> V`. What one task sees is a `State(local, prepared)`, and every
operation is a pure function from the state before to the state after. To
state the library's tests, a small statement language (`Programs.Stmt`)
covers reads, scopes, prepares, resets, throwing, and spawning a child task
or a detached task. Its interpreter records every read.

Modules (one file each):

- `Wrappers`: `Option` (Swift optionals) and `Result` (throwing calls).
- `EnvRegistry`: the dictionary both layers use, with lookup, set, remove
  and remove-all.
- `Resolution`: the read path, `currentTaskIsolatedEnv`.
- `TaskEnv`: scopes, prepares, resets, and the start state of child and
  detached tasks.
- `Programs`: the statement language, its interpreter and the general
  properties.
- `Scenarios`: the library's tests, stated for every key, every live value
  and every mutation. The sync scope test and the closure-field test are
  one lemma, because values are opaque. The live-by-default test is
  `Resolution.ResolveDefault`.

A scope's `mutate` is `(inout Env) -> Void`
(Sources/TaskIsolatedEnv/TaskIsolatedEnv.swift:70), so it cannot throw: it
is a total `V -> V`, and only the scope's body can throw. A prepare's
mutation can throw (line 96), so it is a `V -> Result<V, E>`.

## Model

| member | source | states |
|---|---|---|
| `EnvRegistry.Lookup` | Sources/TaskIsolatedEnv/TaskIsolatedEnv.swift:24-28 | a lookup yields a value exactly when the key has an entry, and then it yields that entry; the same lookup reads the snapshot in `taskLocalEnvOverride` (lines 15-17) |
| `EnvRegistry.Set` | Sources/TaskIsolatedEnv/TaskIsolatedEnv.swift:30-34 | after storing `v` under `k`, a lookup of `k` yields `v`, every other key looks up as before, and the key set gains `k` |
| `EnvRegistry.Remove` | Sources/TaskIsolatedEnv/TaskIsolatedEnv.swift:36-40 | after removing `k`, a lookup of `k` yields nothing and every other key looks up as before; removing an absent key changes nothing |
| `EnvRegistry.RemoveAll` | Sources/TaskIsolatedEnv/TaskIsolatedEnv.swift:42-46 | after removing everything, no key has an entry |
| `EnvRegistry.SetReplaces` | Sources/TaskIsolatedEnv/TaskIsolatedEnv.swift:30-34 | a second store under the same key replaces the first completely |
| `EnvRegistry.RemoveIdempotent` | Sources/TaskIsolatedEnv/TaskIsolatedEnv.swift:36-40 | removing a key twice is the same as removing it once |
| `EnvRegistry.RemoveUndoesSet` | Sources/TaskIsolatedEnv/TaskIsolatedEnv.swift:36-40 | removing a key that was stored into a registry without it gives back the original registry |
| `Resolution.Resolve` | Sources/TaskIsolatedEnv/TaskIsolatedEnv.swift:54-64 | in a debug build a read is a lookup in the snapshot layered over the registry (snapshot wins), defaulting to the live value; in a release build it is the live value |
| `Resolution.ResolveDefault` | Sources/TaskIsolatedEnv/TaskIsolatedEnv.swift:54-64 | with both layers empty, every key reads its live value, in either build |
| `Resolution.ResolvePrecedence` | Sources/TaskIsolatedEnv/TaskIsolatedEnv.swift:56-63 | a task-local entry beats a prepared entry, which beats the live value |
| `Resolution.ResolveLocalIgnoresPrepared` | Sources/TaskIsolatedEnv/TaskIsolatedEnv.swift:56-58 | while a task-local entry for a key exists, no registry contents change what that key reads |
| `Resolution.ResolveDependsOnlyOnKey` | Sources/TaskIsolatedEnv/TaskIsolatedEnv.swift:15-17 | a read of a key depends only on the two layers' entries for that key |
| `TaskEnv.Current` | Sources/TaskIsolatedEnv/TaskIsolatedEnv.swift:54-64 | a debug-build read from a task yields its own entry if it has one, else the prepared entry, else the live value |
| `TaskEnv.Enter` | Sources/TaskIsolatedEnv/TaskIsolatedEnv.swift:73-77 | the scope's snapshot maps `k` to `mutate` of the value read just before entry, keeps every other entry, and leaves the registry alone |
| `TaskEnv.WithEnv` | Sources/TaskIsolatedEnv/TaskIsolatedEnv.swift:68-79 | afterwards, on the normal and the throwing exit alike, the snapshot is the one before the call: every key reads as before entry unless the body changed its prepared entry while the task had no local entry for it, every key without a local entry reads what the body left in the registry, and a task without the snapshot (a detached one) reads exactly the registry the body left for every key, shadowed or not, so all of the body's registry writes persist after the scope; the body's error is rethrown |
| `TaskEnv.Prepare` | Sources/TaskIsolatedEnv/TaskIsolatedEnv.swift:94-101 | on success the registry entry for `k` becomes the mutation of the live value and no other entry changes; if the mutation throws, the error propagates and nothing is written |
| `TaskEnv.Reset` | Sources/TaskIsolatedEnv/TaskIsolatedEnv.swift:112-114 | only the registry entry for `k` is removed, a no-op when absent; the snapshot is untouched |
| `TaskEnv.ResetAll` | Sources/TaskIsolatedEnv/TaskIsolatedEnv.swift:116-118 | every registry entry is removed; the snapshot is untouched |
| `TaskEnv.Detached` | Sources/TaskIsolatedEnv/TaskIsolatedEnv.swift:11-13 | a detached task starts with the default empty snapshot and the shared registry |
| `TaskEnv.JoinKeepsParentView` | Sources/TaskIsolatedEnv/TaskIsolatedEnv.swift:20-22 | after awaiting a spawned task, the parent's own entries still win, and every other key reads what the task left in the process-wide registry |
| `TaskEnv.EnterResolvesMutatedBase` | Sources/TaskIsolatedEnv/TaskIsolatedEnv.swift:86-90 | inside a scope, the key reads `mutate` of whatever it read before entry, whether that came from an outer scope, the registry or the live value |
| `TaskEnv.EnterIsolatesOtherKeys` | Sources/TaskIsolatedEnv/TaskIsolatedEnv.swift:76-77 | entering a scope for one key leaves every other key reading as before |
| `TaskEnv.EnterShieldsFromRegistry` | Sources/TaskIsolatedEnv/TaskIsolatedEnv.swift:56-58 | while a scope is active, no registry contents, whoever wrote them, change what its key reads |
| `TaskEnv.PrepareIgnoresCurrentValue` | Sources/TaskIsolatedEnv/TaskIsolatedEnv.swift:98-100 | the prepared value is computed from the live value alone: snapshots and earlier entries for the key make no difference |
| `TaskEnv.PrepareThenRead` | Sources/TaskIsolatedEnv/TaskIsolatedEnv.swift:107-109 | after a successful prepare, a task without a local entry reads the prepared value, and a task with one still reads its own |
| `TaskEnv.ResetFallsBackToLive` | Sources/TaskIsolatedEnv/TaskIsolatedEnv.swift:112-114 | after a reset, a key without a local entry reads its live value and every other key reads as before |
| `TaskEnv.ResetAllFallsBackToLive` | Sources/TaskIsolatedEnv/TaskIsolatedEnv.swift:116-118 | after resetting everything, every key without a local entry reads its live value and local entries still win |
| `TaskEnv.ChildSeesParentView` | Sources/TaskIsolatedEnv/TaskIsolatedEnv.swift:11-13 | a spawned child task, which starts with a copy of its parent's snapshot, reads every key exactly as its parent does at spawn time |
| `TaskEnv.DetachedSeesOnlyGlobal` | Sources/TaskIsolatedEnv/TaskIsolatedEnv.swift:11-13 | a detached task reads the prepared entry or the live value, the same whatever its parent's snapshot holds |
| `Programs.Run` | Sources/TaskIsolatedEnv/TaskIsolatedEnv.swift:68-92 | whatever a program does, and whether or not it throws, it ends with the snapshot it started with |
| `Programs.Exec` | Sources/TaskIsolatedEnv/TaskIsolatedEnv.swift:54-118 | every single call, including a scope and an awaited spawned task, leaves the caller's snapshot as it found it |
| `Programs.ScopedReadsStable` | Sources/TaskIsolatedEnv/TaskIsolatedEnv.swift:76-78 | while a local entry for `k` is in force, every read of `k` by the task or its children yields that entry, across any number of statements, scopes for other keys, registry writes, children, and detached tasks that do not read `k` |
| `Programs.ExecScopedReadsStable` | Sources/TaskIsolatedEnv/TaskIsolatedEnv.swift:89-91 | the same for a single statement, including a nested scope for another key, a spawned child, and a detached task that does not read `k` |
| `Programs.ScopeExitRestoresReads` | Sources/TaskIsolatedEnv/TaskIsolatedEnv.swift:78 | after a scope exits, by returning or throwing, every key reads as before entry unless the body changed its registry entry and the task has no local entry for it |
| `Scenarios.NestedScopesShadowAndRestore` | Tests/TaskIsolatedEnvTests/TaskIsolatedEnvTests.swift:81-97 | nested scopes for one key: the inner value inside, the outer value after the inner scope, the original value after both |
| `Scenarios.ScopedOverrideThenRestore` | Tests/TaskIsolatedEnvTests/TaskIsolatedEnvTests.swift:51-78 | a read before a scope yields the earlier value, a read inside yields the override, a read after yields the earlier value again; values are opaque, so the closure-valued override test is the same statement |
| `Scenarios.PreparedPersistsOutsideScope` | Tests/TaskIsolatedEnvTests/TaskIsolatedEnvTests.swift:200-210 | after a prepare returns, a task without a local entry reads the prepared value outside any scope, and the registry holds it |
| `Scenarios.ChildInheritsDetachedDoesNot` | Tests/TaskIsolatedEnvTests/TaskIsolatedEnvTests.swift:100-116 | inside a scope, a child task reads the override and a detached task reads the registry or live value |
| `Scenarios.ReadsRepeat` | Tests/TaskIsolatedEnvTests/TaskIsolatedEnvTests.swift:128-134 | repeated reads with nothing in between all yield the same value and change nothing |
| `Scenarios.SiblingOverridesDoNotLeak` | Tests/TaskIsolatedEnvTests/TaskIsolatedEnvTests.swift:119-145 | sibling tasks each read only their own override inside their scope and the parent's value after it, and the parent's state is unchanged |
| `Scenarios.KeysAreIsolated` | Tests/TaskIsolatedEnvTests/TaskIsolatedEnvTests.swift:148-170 | both keys read their current values first, then scopes for two different keys change and restore only their own key |
| `Scenarios.PreparedPersistsAndScopeWins` | Tests/TaskIsolatedEnvTests/TaskIsolatedEnvTests.swift:178-198 | the key first reads its current value, then the prepared value is read outside scopes, a scope wins over it inside, it is back after, and a reset brings the live value back |
| `Scenarios.ResetAllClearsEveryPreparedValue` | Tests/TaskIsolatedEnvTests/TaskIsolatedEnvTests.swift:213-230 | two prepared keys read their prepared values, and after a reset of everything both read their live values and the registry is empty |
| `Scenarios.ThrowingScopeRestores` | Sources/TaskIsolatedEnv/TaskIsolatedEnv.swift:78 | a scope whose body throws propagates the error, skips what follows, and leaves the state exactly as before the scope |
| `Scenarios.FailedPrepareWritesNothing` | Sources/TaskIsolatedEnv/TaskIsolatedEnv.swift:98-100 | a prepare whose mutation throws writes nothing and skips the rest of the program |
| `Scenarios.PreparedInsideScopePersists` | Sources/TaskIsolatedEnv/TaskIsolatedEnv.swift:20-22 | a value prepared inside a scope is still in the registry, and is read, after the scope has exited |

## Left out

- The `NSRecursiveLock` of the prepared registry only makes its operations mutually exclusive, so each registry operation is one atomic map update.
- Swift's `@TaskLocal` runtime, suspension points and scheduling are not modelled. Each task owns its snapshot as an immutable value, and sibling tasks run one after another in one fixed order. For a key the task has a local entry for, `TaskEnv.EnterShieldsFromRegistry` and `Resolution.ResolveLocalIgnoresPrepared` show that the only shared state, the registry, cannot change what the task reads, so any interleaving reads the same values. Reads of keys without a local entry do depend on where other tasks' prepares and resets fall, and the model covers only the order it runs.
- Spawned tasks (`Task { }`, `Task.detached { }`) are awaited where they are created, as the child and detached task test does; the task-group siblings run one after another (see above). A task that outlives the scope it was created in is not modelled. An error thrown by an awaited task reaches the parent, as `try await task.value` would deliver it.
- Mutations are assumed to have no effects of their own. In Swift a `mutate` closure can itself call `prepareTaskIsolatedEnv` or a reset, and the async overloads can await work that does. The model treats it as a pure function of the value. So "nothing is written" in `TaskEnv.Prepare` covers only the write `prepareTaskIsolatedEnv` makes itself, and `TaskEnv.Enter` leaves the registry untouched only under this assumption.
- Cancellation is not a separate exit. A cancelled body ends the way a throwing body does, and restoration covers both exits.
- The `EnvBox` boxing, `ObjectIdentifier` keys and `as? Env` casts become one abstract key type and one opaque value type. For value types the cast cannot fail, because the key is the type's identity.
- A failing `as? Env` cast is not modelled. It can happen with class environments: an override passed through a superclass metatype (`Sub.self as Base.Type`) can store a `Base` under `Sub`'s identifier. A read of `Sub` then fails the cast at line 16 or 27 and falls through to the next layer. The model always takes the stored entry.
- Closure-valued fields such as `formatValue` in the tests are part of the opaque value.
- Environments are assumed to have value semantics. For a class `Env`, `mutate(&value)` at lines 74, 87, 99 and 108 changes the instance shared with the outer snapshot, the registry or the `liveValue` singleton. Such an override then outlives its scope in every task, and a throwing prepare can leave a partial change in `liveValue`. With a pure `V -> V` or `V -> Result<V, E>` on an opaque `V` the model cannot express this sharing. `TaskEnv.WithEnv`, `Programs.ScopeExitRestoresReads`, `Scenarios.NestedScopesShadowAndRestore` and the other restoration results hold only for value-type environments, the case the tests use.
- The sync and async overloads of `withTaskIsolatedEnv` and `prepareTaskIsolatedEnv` behave identically, so each is modelled once. The window in which an async prepare mutation is still running is not modelled: readers then see the registry before the write, which is just the state before the `Install` statement.
- The `#if DEBUG` gating is the `debug` flag of `Resolution.Resolve`. The scope, prepare and reset operations exist only in debug builds, so they always read with `debug` true.
- Package.swift is a build manifest and is not part of this model.

=== FILE: env_registry.dfy ===
/** The dictionary shared by both override layers.

    Both the task-local snapshot and the prepared (global) registry are
    dictionaries from an environment-type identity to a boxed value. Keys
    stand for `ObjectIdentifier(type)`; values are opaque, so the boxing and
    the `as? Env` cast of the source disappear. The lock that guards the
    prepared registry only serialises callers, so every operation here is an
    atomic update of an immutable map.
 */
module EnvRegistry {
  import opened Wrappers

  /** The entry for `k`, if any: `values[id]?.value`, as read by
      `taskLocalEnvOverride` from the snapshot and by
      `PreparedEnvRegistry.value(for:)` from the registry. */
  function Lookup<K(!new), V>(m: map<K, V>, k: K): (r: Option<V>)
    ensures r.Some? <==> k in m
    ensures r.Some? ==> r.value == m[k]
  {
    if k in m then Some(m[k]) else None
  }

  /** `values[id] = .init(value: v)`: the entry for `k` becomes `v` and every
      other entry is kept. */
  function Set<K(!new), V>(m: map<K, V>, k: K, v: V): (r: map<K, V>)
    ensures Lookup(r, k) == Some(v)
    ensures forall j :: j != k ==> Lookup(r, j) == Lookup(m, j)
    ensures r.Keys == m.Keys + {k}
  {
    m[k := v]
  }

  /** `values.removeValue(forKey: id)`: the entry for `k` is gone and every
      other entry is kept; removing an absent key changes nothing. */
  function Remove<K(!new), V>(m: map<K, V>, k: K): (r: map<K, V>)
    ensures Lookup(r, k) == None
    ensures forall j :: j != k ==> Lookup(r, j) == Lookup(m, j)
    ensures k !in m ==> r == m
    ensures r.Keys == m.Keys - {k}
  {
    m - {k}
  }

  /** `values.removeAll()`: no key has an entry any more. */
  function RemoveAll<K(!new), V>(m: map<K, V>): (r: map<K, V>)
    ensures forall j :: Lookup(r, j) == None
    ensures |r| == 0
  {
    map[]
  }

  /** Two maps that agree on every lookup are the same map. */
  lemma LookupExtensional<K(!new), V>(m1: map<K, V>, m2: map<K, V>)
    requires forall j :: Lookup(m1, j) == Lookup(m2, j)
    ensures m1 == m2
  {
    assert m1.Keys == m2.Keys by {
      forall j | j in m1 ensures j in m2 {
        assert Lookup(m1, j).Some?;
      }
      forall j | j in m2 ensures j in m1 {
        assert Lookup(m2, j).Some?;
      }
    }
    forall j | j in m1 ensures m1[j] == m2[j] {
      assert Lookup(m1, j) == Lookup(m2, j);
    }
  }

  /** A later `Set` for the same key replaces the earlier one entirely. */
  lemma SetReplaces<K(!new), V>(m: map<K, V>, k: K, v1: V, v2: V)
    ensures Set(Set(m, k, v1), k, v2) == Set(m, k, v2)
  {
  }

  /** Removing twice is the same as removing once. */
  lemma RemoveIdempotent<K(!new), V>(m: map<K, V>, k: K)
    ensures Remove(Remove(m, k), k) == Remove(m, k)
  {
  }

  /** Removing a key undoes a `Set` of a key that was absent before. */
  lemma RemoveUndoesSet<K(!new), V>(m: map<K, V>, k: K, v: V)
    requires k !in m
    ensures Remove(Set(m, k, v), k) == m
  {
  }
}

=== FILE: programs.dfy ===
/** Task programs: the calls a task makes, run in order.

    A program is a sequence of statements, one per public call of the
    library, plus the two ways the tests spawn work: a structured child
    task (`Task { ... }`, awaited) and a detached task (`Task.detached`,
    awaited). Running a program threads the state through its statements
    and stops at the first error, as a `throws` body does. The reads it
    makes are recorded, so the tests' expectations become statements about
    the recorded reads.
 */
module Programs {
  import opened Wrappers
  import opened EnvRegistry
  import opened Resolution
  import opened TaskEnv

  datatype Stmt<K, !V, E> =
    | Read(key: K)                                           // currentTaskIsolatedEnv
    | Scoped(key: K, mutate: V -> V, body: seq<Stmt<K, V, E>>) // withTaskIsolatedEnv
    | Install(key: K, prepare: V -> Result<V, E>)            // prepareTaskIsolatedEnv
    | Uninstall(key: K)                                      // resetPreparedTaskIsolatedEnv
    | UninstallAll                                           // resetPreparedTaskIsolatedEnvs
    | Throw(error: E)                                        // a throwing statement of the body
    | Spawn(body: seq<Stmt<K, V, E>>)                        // Task { ... } awaited
    | SpawnDetached(body: seq<Stmt<K, V, E>>)                // Task.detached { ... } awaited

  /** Runs `prog` from `s`. Whatever the program does, including throwing,
      the task's snapshot at the end is the one it started with: only
      scopes change it, and each scope puts it back. */
  function Run<K(!new), V, E>(s: State<K, V>, live: K -> V, prog: seq<Stmt<K, V, E>>): (r: Step<K, V, E>)
    ensures r.state.local == s.local
    decreases prog, 0
  {
    if |prog| == 0 then Step(s, [], None)
    else Then(Exec(s, live, prog[0]), live, prog[1..])
  }

  /** Continues with `rest` after a statement ended in `first`: a thrown
      error skips the rest, otherwise the reads are concatenated. */
  function Then<K(!new), V, E>(first: Step<K, V, E>, live: K -> V, rest: seq<Stmt<K, V, E>>): (r: Step<K, V, E>)
    ensures r.state.local == first.state.local
    decreases rest, 1
  {
    if first.error.Some? then first
    else
      var tail := Run(first.state, live, rest);
      Step(tail.state, first.observed + tail.observed, tail.error)
  }

  /** Runs one statement from `s`; like `Run`, it leaves the snapshot as
      it found it. */
  function Exec<K(!new), V, E>(s: State<K, V>, live: K -> V, st: Stmt<K, V, E>): (r: Step<K, V, E>)
    ensures r.state.local == s.local
    decreases st
  {
    match st
    case Read(k) => Step(s, [Obs(k, Current(s, live, k))], None)
    case Scoped(k, mutate, body) => WithEnv(s, live, k, mutate, t => Run(t, live, body))
    case Install(k, prepare) => Prepare(s, live, k, prepare)
    case Uninstall(k) => Step(Reset(s, k), [], None)
    case UninstallAll => Step(ResetAll(s), [], None)
    case Throw(e) => Step(s, [], Some(e))
    case Spawn(body) => Join(s, Run(Child(s), live, body))
    case SpawnDetached(body) => Join(s, Run(Detached(s), live, body))
  }

  /** The programs in which a task-local entry for `k` stays in force for
      every read of `k`: no nested scope for `k` at any depth, and no
      detached task that reads `k`. */
  ghost predicate KeepsBinding<K, V, E>(k: K, prog: seq<Stmt<K, V, E>>)
    decreases prog
  {
    forall i :: 0 <= i < |prog| ==> StmtKeepsBinding(k, prog[i])
  }

  ghost predicate StmtKeepsBinding<K, V, E>(k: K, st: Stmt<K, V, E>)
    decreases st
  {
    match st
    case Scoped(j, _, body) => j != k && KeepsBinding(k, body)
    case Spawn(body) => KeepsBinding(k, body)
    case SpawnDetached(body) => NoRead(k, body)
    case _ => true
  }

  /** The programs that never read `k`, at any depth. */
  ghost predicate NoRead<K, V, E>(k: K, prog: seq<Stmt<K, V, E>>)
    decreases prog
  {
    forall i :: 0 <= i < |prog| ==> StmtNoRead(k, prog[i])
  }

  ghost predicate StmtNoRead<K, V, E>(k: K, st: Stmt<K, V, E>)
    decreases st
  {
    match st
    case Read(j) => j != k
    case Scoped(_, _, body) => NoRead(k, body)
    case Spawn(body) => NoRead(k, body)
    case SpawnDetached(body) => NoRead(k, body)
    case _ => true
  }

  /** A program that never reads `k` records no read of `k`. */
  lemma {:induction false} NoReadNoObs<K(!new), V, E>(s: State<K, V>, live: K -> V, k: K, prog: seq<Stmt<K, V, E>>)
    requires NoRead(k, prog)
    ensures forall o :: o in Run(s, live, prog).observed ==> o.key != k
    decreases prog
  {
    if |prog| > 0 {
      var first := Exec(s, live, prog[0]);
      ExecNoReadNoObs(s, live, k, prog[0]);
      if first.error.None? {
        assert NoRead(k, prog[1..]) by {
          forall i | 0 <= i < |prog[1..]| ensures StmtNoRead(k, prog[1..][i]) {
            assert prog[1..][i] == prog[i + 1];
          }
        }
        NoReadNoObs(first.state, live, k, prog[1..]);
      }
    }
  }

  lemma {:induction false} ExecNoReadNoObs<K(!new), V, E>(s: State<K, V>, live: K -> V, k: K, st: Stmt<K, V, E>)
    requires StmtNoRead(k, st)
    ensures forall o :: o in Exec(s, live, st).observed ==> o.key != k
    decreases st
  {
    match st
    case Scoped(j, mutate, body) =>
      NoReadNoObs(Enter(s, live, j, mutate), live, k, body);
    case Spawn(body) =>
      NoReadNoObs(Child(s), live, k, body);
    case SpawnDetached(body) =>
      NoReadNoObs(Detached(s), live, k, body);
    case _ =>
  }

  /** Every read of `k` made while a task-local entry for `k` is in force
      yields that entry, however many statements, scopes for other keys,
      registry writes, structured children or detached tasks that do not
      read `k` come in between. */
  lemma {:induction false} ScopedReadsStable<K(!new), V, E>(s: State<K, V>, live: K -> V, k: K, prog: seq<Stmt<K, V, E>>)
    requires k in s.local
    requires KeepsBinding(k, prog)
    ensures forall o :: o in Run(s, live, prog).observed && o.key == k ==> o.value == s.local[k]
    decreases prog
  {
    if |prog| > 0 {
      var first := Exec(s, live, prog[0]);
      ExecScopedReadsStable(s, live, k, prog[0]);
      if first.error.None? {
        assert KeepsBinding(k, prog[1..]) by {
          forall i | 0 <= i < |prog[1..]| ensures StmtKeepsBinding(k, prog[1..][i]) {
            assert prog[1..][i] == prog[i + 1];
          }
        }
        ScopedReadsStable(first.state, live, k, prog[1..]);
      }
    }
  }

  lemma {:induction false} ExecScopedReadsStable<K(!new), V, E>(s: State<K, V>, live: K -> V, k: K, st: Stmt<K, V, E>)
    requires k in s.local
    requires StmtKeepsBinding(k, st)
    ensures forall o :: o in Exec(s, live, st).observed && o.key == k ==> o.value == s.local[k]
    decreases st
  {
    match st
    case Scoped(j, mutate, body) =>
      var inner := Enter(s, live, j, mutate);
      assert Lookup(inner.local, k) == Lookup(s.local, k);
      ScopedReadsStable(inner, live, k, body);
    case Spawn(body) =>
      ScopedReadsStable(Child(s), live, k, body);
    case SpawnDetached(body) =>
      NoReadNoObs(Detached(s), live, k, body);
    case _ =>
  }

  /** Running `p + q` is running `p` and then, unless `p` threw, running
      `q` from where `p` left off. */
  lemma {:induction false} RunAppend<K(!new), V, E>(s: State<K, V>, live: K -> V, p: seq<Stmt<K, V, E>>, q: seq<Stmt<K, V, E>>)
    ensures Run(s, live, p + q) == Then(Run(s, live, p), live, q)
    decreases p
  {
    if |p| == 0 {
      assert p + q == q;
      var tail := Run(s, live, q);
      assert [] + tail.observed == tail.observed;
    } else {
      assert (p + q)[0] == p[0];
      assert (p + q)[1..] == p[1..] + q;
      var first := Exec(s, live, p[0]);
      if first.error.None? {
        RunAppend(first.state, live, p[1..], q);
        var mid := Run(first.state, live, p[1..]);
        if mid.error.None? {
          var tail := Run(mid.state, live, q);
          assert first.observed + (mid.observed + tail.observed)
              == (first.observed + mid.observed) + tail.observed;
        }
      }
    }
  }

  /** A program of one statement runs that statement. */
  lemma RunSingle<K(!new), V, E>(s: State<K, V>, live: K -> V, st: Stmt<K, V, E>)
    ensures Run(s, live, [st]) == Exec(s, live, st)
  {
    var first := Exec(s, live, st);
    assert [st][1..] == [];
    var none: seq<Stmt<K, V, E>> := [];
    assert Run(first.state, live, none) == Step(first.state, [], None);
    assert first.observed + [] == first.observed;
  }

  /** Running `st` and then `rest`. */
  lemma RunCons<K(!new), V, E>(s: State<K, V>, live: K -> V, st: Stmt<K, V, E>, rest: seq<Stmt<K, V, E>>)
    ensures Run(s, live, [st] + rest) == Then(Exec(s, live, st), live, rest)
  {
  }

  /** After a scope exits, by returning or by throwing, every key reads as
      it did before entry, unless the body changed that key's prepared
      entry while the task had no local entry for it. */
  lemma ScopeExitRestoresReads<K(!new), V, E>(s: State<K, V>, live: K -> V, k: K, mutate: V -> V, body: seq<Stmt<K, V, E>>, j: K)
    requires j in s.local || Lookup(Exec(s, live, Scoped(k, mutate, body)).state.prepared, j) == Lookup(s.prepared, j)
    ensures Current(Exec(s, live, Scoped(k, mutate, body)).state, live, j) == Current(s, live, j)
  {
  }

  /** A scope runs its body in the entered state and then puts the
      snapshot back. */
  lemma ExecScoped<K(!new), V, E>(s: State<K, V>, live: K -> V, k: K, mutate: V -> V, body: seq<Stmt<K, V, E>>)
    ensures var inner := Run(Enter(s, live, k, mutate), live, body);
            Exec(s, live, Scoped(k, mutate, body)) == Step(State(s.local, inner.state.prepared), inner.observed, inner.error)
  {
  }
}

=== FILE: resolution.dfy ===
/** The read path: `currentTaskIsolatedEnv`.

    A read consults the task-local snapshot first, then the prepared
    registry, then the environment type's live value. In a release build
    (the `DEBUG` condition is false) the read consults neither override
    layer and yields the live value; `debug` stands for that build
    condition.
 */
module Resolution {
  import opened Wrappers
  import opened EnvRegistry

  /** The value a read of `k` returns, given the task-local snapshot `local`,
      the prepared registry `prepared` and the live values `live`.
      In a debug build this is a lookup in the task-local snapshot layered
      over the prepared registry (map union: the right side wins), with the
      live value as the default; in a release build it is the live value. */
  function Resolve<K(!new), V>(debug: bool, local: map<K, V>, prepared: map<K, V>, live: K -> V, k: K): (r: V)
    ensures debug ==> r == Lookup(prepared + local, k).GetOr(live(k))
    ensures !debug ==> r == live(k)
  {
    if !debug then live(k)
    else
      match Lookup(local, k)
      case Some(v) => v
      case None =>
        match Lookup(prepared, k)
        case Some(p) => p
        case None => live(k)
  }

  /** With no override anywhere a read yields the live value, in either build. */
  lemma ResolveDefault<K(!new), V>(debug: bool, live: K -> V, k: K)
    ensures Resolve(debug, map[], map[], live, k) == live(k)
  {
  }

  /** Strict precedence in a debug build: a task-local entry beats a
      prepared entry, which beats the live value. */
  lemma ResolvePrecedence<K(!new), V>(local: map<K, V>, prepared: map<K, V>, live: K -> V, k: K)
    ensures k in local ==> Resolve(true, local, prepared, live, k) == local[k]
    ensures k !in local && k in prepared ==> Resolve(true, local, prepared, live, k) == prepared[k]
    ensures k !in local && k !in prepared ==> Resolve(true, local, prepared, live, k) == live(k)
  {
  }

  /** While a task-local entry for `k` exists, nothing done to the prepared
      registry can change what a read of `k` yields. */
  lemma ResolveLocalIgnoresPrepared<K(!new), V>(local: map<K, V>, p1: map<K, V>, p2: map<K, V>, live: K -> V, k: K)
    requires k in local
    ensures Resolve(true, local, p1, live, k) == Resolve(true, local, p2, live, k)
  {
  }

  /** A read of `k` depends only on the entries for `k`: two states that
      agree at `k` read `k` alike, whatever they hold for other keys. */
  lemma ResolveDependsOnlyOnKey<K(!new), V>(l1: map<K, V>, p1: map<K, V>, l2: map<K, V>, p2: map<K, V>, live: K -> V, k: K)
    requires Lookup(l1, k) == Lookup(l2, k)
    requires Lookup(p1, k) == Lookup(p2, k)
    ensures Resolve(true, l1, p1, live, k) == Resolve(true, l2, p2, live, k)
  {
  }
}

=== FILE: scenarios.dfy ===
/** The library's own test scenarios, stated for every key, every live
    value and every mutation rather than for the tests' sample numbers. */
module Scenarios {
  import opened Wrappers
  import opened EnvRegistry
  import opened Resolution
  import opened TaskEnv
  import opened Programs

  /** Nested scopes for one key: the inner override wins inside, the outer
      one is back after the inner scope, and the value before both is back
      after the outer scope. The inner mutation starts from the outer
      override, not from the live value. */
  lemma NestedScopesShadowAndRestore<K(!new), V, E>(s: State<K, V>, live: K -> V, k: K, outer: V -> V, inner: V -> V)
    ensures var b := Current(s, live, k);
            Run<K, V, E>(s, live, [Scoped(k, outer, [Read(k), Scoped(k, inner, [Read(k)]), Read(k)]), Read(k)])
              == Step(s, [Obs(k, outer(b)), Obs(k, inner(outer(b))), Obs(k, outer(b)), Obs(k, b)], None)
  {
    var b := Current(s, live, k);
    var s1 := Enter(s, live, k, outer);
    var s2 := Enter(s1, live, k, inner);
    var innerBody: seq<Stmt<K, V, E>> := [Read(k)];
    RunSingle<K, V, E>(s2, live, Read(k));
    assert Run(s2, live, innerBody) == Step(s2, [Obs(k, inner(outer(b)))], None);
    var outerBody: seq<Stmt<K, V, E>> := [Read(k), Scoped(k, inner, innerBody), Read(k)];
    RunCons(s1, live, Read(k), [Scoped(k, inner, innerBody), Read(k)]);
    RunCons(s1, live, Scoped(k, inner, innerBody), [Read(k)]);
    RunSingle<K, V, E>(s1, live, Read(k));
    assert Exec(s1, live, Scoped(k, inner, innerBody)) == Step(s1, [Obs(k, inner(outer(b)))], None);
    assert Run(s1, live, outerBody) == Step(s1, [Obs(k, outer(b)), Obs(k, inner(outer(b))), Obs(k, outer(b))], None);
    RunCons(s, live, Scoped(k, outer, outerBody), [Read(k)]);
    RunSingle<K, V, E>(s, live, Read(k));
  }

  /** A structured child spawned inside a scope reads the override; a
      detached task spawned there reads only the registry or live value. */
  lemma ChildInheritsDetachedDoesNot<K(!new), V, E>(s: State<K, V>, live: K -> V, k: K, mutate: V -> V)
    ensures var v := mutate(Current(s, live, k));
            Run<K, V, E>(s, live, [Scoped(k, mutate, [Read(k), Spawn([Read(k)]), SpawnDetached([Read(k)])])])
              == Step(s, [Obs(k, v), Obs(k, v), Obs(k, Lookup(s.prepared, k).GetOr(live(k)))], None)
  {
    var v := mutate(Current(s, live, k));
    var d := Lookup(s.prepared, k).GetOr(live(k));
    var s1 := Enter(s, live, k, mutate);
    var one: seq<Stmt<K, V, E>> := [Read(k)];
    RunSingle<K, V, E>(Child(s1), live, Read(k));
    assert Exec(s1, live, Spawn(one)) == Step(s1, [Obs(k, v)], None);
    RunSingle<K, V, E>(Detached(s1), live, Read(k));
    DetachedSeesOnlyGlobal(s1, s, live, k);
    assert Exec(s1, live, SpawnDetached(one)) == Step(s1, [Obs(k, d)], None);
    var body: seq<Stmt<K, V, E>> := [Read(k), Spawn(one), SpawnDetached(one)];
    RunCons(s1, live, Read(k), [Spawn(one), SpawnDetached(one)]);
    RunCons(s1, live, Spawn(one), [SpawnDetached(one)]);
    RunSingle(s1, live, SpawnDetached(one));
    assert Run(s1, live, body) == Step(s1, [Obs(k, v), Obs(k, v), Obs(k, d)], None);
    RunSingle(s, live, Scoped(k, mutate, body));
  }

  /** `n` reads of `k` in a row. */
  function Reads<K, V, E>(k: K, n: nat): seq<Stmt<K, V, E>>
  {
    if n == 0 then [] else [Read(k)] + Reads(k, n - 1)
  }

  /** `n` copies of one read. */
  function Repeat<K, V>(o: Obs<K, V>, n: nat): seq<Obs<K, V>>
  {
    if n == 0 then [] else [o] + Repeat(o, n - 1)
  }

  /** Reads made without anything in between all yield the same value. */
  lemma {:induction false} ReadsRepeat<K(!new), V, E>(s: State<K, V>, live: K -> V, k: K, n: nat)
    ensures Run(s, live, Reads<K, V, E>(k, n)) == Step(s, Repeat(Obs(k, Current(s, live, k)), n), None)
    decreases n
  {
    if n > 0 {
      RunCons(s, live, Read(k), Reads<K, V, E>(k, n - 1));
      ReadsRepeat<K, V, E>(s, live, k, n - 1);
    } else {
      assert Reads<K, V, E>(k, n) == [];
    }
  }

  /** Sibling tasks of one parent: the i-th enters a scope for `k` with
      `ms[i]`, reads `k` `n` times inside it, and reads `k` once more after
      the scope has ended. */
  function Siblings<K, V, E>(k: K, ms: seq<V -> V>, n: nat): seq<Stmt<K, V, E>>
    decreases |ms|
  {
    if |ms| == 0 then []
    else [Spawn([Scoped(k, ms[0], Reads(k, n)), Read(k)])] + Siblings(k, ms[1..], n)
  }

  /** What the siblings read, one after another: each sees only its own
      override inside its scope, and the parent's value `base` after it. */
  function SiblingReads<K, V>(k: K, ms: seq<V -> V>, base: V, n: nat): seq<Obs<K, V>>
    decreases |ms|
  {
    if |ms| == 0 then []
    else Repeat(Obs(k, ms[0](base)), n) + [Obs(k, base)] + SiblingReads(k, ms[1..], base, n)
  }

  /** No sibling's override leaks into another sibling or into the parent:
      each sibling reads its own override throughout its scope and the
      parent's value after it, and the parent's state is unchanged. */
  lemma {:induction false} SiblingOverridesDoNotLeak<K(!new), V, E>(s: State<K, V>, live: K -> V, k: K, ms: seq<V -> V>, n: nat)
    ensures Run(s, live, Siblings<K, V, E>(k, ms, n)) == Step(s, SiblingReads(k, ms, Current(s, live, k), n), None)
    decreases |ms|
  {
    var b := Current(s, live, k);
    if |ms| == 0 {
      assert Siblings<K, V, E>(k, ms, n) == [];
    } else {
      var inner := Enter(s, live, k, ms[0]);
      ReadsRepeat<K, V, E>(inner, live, k, n);
      var scope: Stmt<K, V, E> := Scoped(k, ms[0], Reads(k, n));
      assert Exec(s, live, scope) == Step(s, Repeat(Obs(k, ms[0](b)), n), None);
      RunCons(s, live, scope, [Read(k)]);
      RunSingle<K, V, E>(s, live, Read(k));
      var child := Run(s, live, [scope, Read(k)]);
      assert child == Step(s, Repeat(Obs(k, ms[0](b)), n) + [Obs(k, b)], None);
      RunCons(s, live, Spawn([scope, Read(k)]), Siblings<K, V, E>(k, ms[1..], n));
      SiblingOverridesDoNotLeak<K, V, E>(s, live, k, ms[1..], n);
    }
  }

  /** Overrides of two different keys are independent: each scope changes
      only its own key, and leaving it restores only that key. */
  lemma KeysAreIsolated<K(!new), V, E>(s: State<K, V>, live: K -> V, a: K, b: K, ma: V -> V, mb: V -> V)
    requires a != b
    ensures var va, vb := Current(s, live, a), Current(s, live, b);
            Run<K, V, E>(s, live, [Read(a), Read(b), Scoped(a, ma, [Read(a), Read(b), Scoped(b, mb, [Read(a), Read(b)]), Read(b)]), Read(a), Read(b)])
              == Step(s, [Obs(a, va), Obs(b, vb), Obs(a, ma(va)), Obs(b, vb), Obs(a, ma(va)), Obs(b, mb(vb)), Obs(b, vb), Obs(a, va), Obs(b, vb)], None)
  {
    var rest: seq<Stmt<K, V, E>> := [Scoped(a, ma, [Read(a), Read(b), Scoped(b, mb, [Read(a), Read(b)]), Read(b)]), Read(a), Read(b)];
    var va, vb := Current(s, live, a), Current(s, live, b);
    var tail := [Obs(a, ma(va)), Obs(b, vb), Obs(a, ma(va)), Obs(b, mb(vb)), Obs(b, vb), Obs(a, va), Obs(b, vb)];
    KeysTestAfterOpeningReads<K, V, E>(s, live, a, b, ma, mb);
    assert Run(s, live, rest) == Step(s, tail, None);
    RunCons(s, live, Read(b), rest);
    assert Run(s, live, [Read(b)] + rest) == Step(s, [Obs(b, vb)] + tail, None);
    RunCons(s, live, Read(a), [Read(b)] + rest);
    assert Run(s, live, [Read(a)] + ([Read(b)] + rest)) == Step(s, [Obs(a, va)] + ([Obs(b, vb)] + tail), None);
    assert [Read(a)] + ([Read(b)] + rest) == [Read(a), Read(b)] + rest;
    assert [Read(a), Read(b)] + rest
        == [Read(a), Read(b), Scoped(a, ma, [Read(a), Read(b), Scoped(b, mb, [Read(a), Read(b)]), Read(b)]), Read(a), Read(b)];
    assert [Obs(a, va)] + ([Obs(b, vb)] + tail)
        == [Obs(a, va), Obs(b, vb), Obs(a, ma(va)), Obs(b, vb), Obs(a, ma(va)), Obs(b, mb(vb)), Obs(b, vb), Obs(a, va), Obs(b, vb)];
  }

  /** `KeysAreIsolated` from the first scope on. */
  lemma KeysTestAfterOpeningReads<K(!new), V, E>(s: State<K, V>, live: K -> V, a: K, b: K, ma: V -> V, mb: V -> V)
    requires a != b
    ensures var va, vb := Current(s, live, a), Current(s, live, b);
            Run<K, V, E>(s, live, [Scoped(a, ma, [Read(a), Read(b), Scoped(b, mb, [Read(a), Read(b)]), Read(b)]), Read(a), Read(b)])
              == Step(s, [Obs(a, ma(va)), Obs(b, vb), Obs(a, ma(va)), Obs(b, mb(vb)), Obs(b, vb), Obs(a, va), Obs(b, vb)], None)
  {
    var va, vb := Current(s, live, a), Current(s, live, b);
    var s1 := Enter(s, live, a, ma);
    EnterIsolatesOtherKeys(s, live, a, ma, b);
    var innerBody: seq<Stmt<K, V, E>> := [Read(a), Read(b)];
    var outerBody: seq<Stmt<K, V, E>> := [Read(a), Read(b), Scoped(b, mb, innerBody), Read(b)];
    OuterBodyOfKeysTest<K, V, E>(s1, live, a, b, mb);
    ExecScoped(s, live, a, ma, outerBody);
    assert Exec(s, live, Scoped(a, ma, outerBody))
        == Step(s, [Obs(a, ma(va)), Obs(b, vb), Obs(a, ma(va)), Obs(b, mb(vb)), Obs(b, vb)], None);
    RunCons(s, live, Scoped(a, ma, outerBody), [Read(a), Read(b)]);
    RunCons<K, V, E>(s, live, Read(a), [Read(b)]);
    RunSingle<K, V, E>(s, live, Read(b));
  }

  /** The outer scope's body in `KeysAreIsolated`, run in the outer
      scope's state. */
  lemma OuterBodyOfKeysTest<K(!new), V, E>(s1: State<K, V>, live: K -> V, a: K, b: K, mb: V -> V)
    requires a != b
    ensures var va, vb := Current(s1, live, a), Current(s1, live, b);
            Run<K, V, E>(s1, live, [Read(a), Read(b), Scoped(b, mb, [Read(a), Read(b)]), Read(b)])
              == Step(s1, [Obs(a, va), Obs(b, vb), Obs(a, va), Obs(b, mb(vb)), Obs(b, vb)], None)
  {
    var va, vb := Current(s1, live, a), Current(s1, live, b);
    var s2 := Enter(s1, live, b, mb);
    EnterIsolatesOtherKeys(s1, live, b, mb, a);
    var innerBody: seq<Stmt<K, V, E>> := [Read(a), Read(b)];
    RunCons<K, V, E>(s2, live, Read(a), [Read(b)]);
    RunSingle<K, V, E>(s2, live, Read(b));
    ExecScoped(s1, live, b, mb, innerBody);
    assert Exec(s1, live, Scoped(b, mb, innerBody)) == Step(s1, [Obs(a, va), Obs(b, mb(vb))], None);
    var outerBody: seq<Stmt<K, V, E>> := [Read(a), Read(b), Scoped(b, mb, innerBody), Read(b)];
    RunCons(s1, live, Read(a), outerBody[1..]);
    RunCons(s1, live, Read(b), outerBody[2..]);
    RunCons(s1, live, Scoped(b, mb, innerBody), [Read(b)]);
    RunSingle<K, V, E>(s1, live, Read(b));
  }

  /** A prepared value persists outside any scope, a scope for the same key
      wins over it inside, it is back after the scope, and resetting it
      brings back the live value. */
  lemma PreparedPersistsAndScopeWins<K(!new), V, E>(s: State<K, V>, live: K -> V, k: K, f: V -> Result<V, E>, mutate: V -> V)
    requires k !in s.local
    requires f(live(k)).Success?
    ensures var g := f(live(k)).value;
            var r := Run(s, live, [Read(k), Install(k, f), Read(k), Scoped(k, mutate, [Read(k)]), Read(k), Uninstall(k), Read(k)]);
            && r.observed == [Obs(k, Lookup(s.prepared, k).GetOr(live(k))), Obs(k, g), Obs(k, mutate(g)), Obs(k, g), Obs(k, live(k))]
            && r.error == None
            && r.state == State(s.local, Remove(s.prepared, k))
  {
    var rest: seq<Stmt<K, V, E>> := [Install(k, f), Read(k), Scoped(k, mutate, [Read(k)]), Read(k), Uninstall(k), Read(k)];
    PreparedTestAfterOpeningRead(s, live, k, f, mutate);
    RunCons(s, live, Read(k), rest);
    assert [Read(k)] + rest == [Read(k), Install(k, f), Read(k), Scoped(k, mutate, [Read(k)]), Read(k), Uninstall(k), Read(k)];
  }

  /** `PreparedPersistsAndScopeWins` from the prepare on. */
  lemma PreparedTestAfterOpeningRead<K(!new), V, E>(s: State<K, V>, live: K -> V, k: K, f: V -> Result<V, E>, mutate: V -> V)
    requires k !in s.local
    requires f(live(k)).Success?
    ensures var g := f(live(k)).value;
            var r := Run(s, live, [Install(k, f), Read(k), Scoped(k, mutate, [Read(k)]), Read(k), Uninstall(k), Read(k)]);
            && r.observed == [Obs(k, g), Obs(k, mutate(g)), Obs(k, g), Obs(k, live(k))]
            && r.error == None
            && r.state == State(s.local, Remove(s.prepared, k))
  {
    var g := f(live(k)).value;
    var s1 := Prepare(s, live, k, f).state;
    assert Current(s1, live, k) == g;
    var s2 := Reset(s1, k);
    assert s2 == State(s.local, Remove(s.prepared, k)) by {
      forall j ensures Lookup(s2.prepared, j) == Lookup(Remove(s.prepared, k), j) {
      }
      LookupExtensional(s2.prepared, Remove(s.prepared, k));
    }
    var prog: seq<Stmt<K, V, E>> := [Install(k, f), Read(k), Scoped(k, mutate, [Read(k)]), Read(k), Uninstall(k), Read(k)];
    PreparedScopeThenReset<K, V, E>(s1, live, k, mutate);
    RunCons(s, live, prog[0], prog[1..]);
  }

  /** The part of `PreparedPersistsAndScopeWins` that runs with the value
      prepared. */
  lemma PreparedScopeThenReset<K(!new), V, E>(s1: State<K, V>, live: K -> V, k: K, mutate: V -> V)
    requires k !in s1.local
    ensures var g := Current(s1, live, k);
            Run<K, V, E>(s1, live, [Read(k), Scoped(k, mutate, [Read(k)]), Read(k), Uninstall(k), Read(k)])
              == Step(Reset(s1, k), [Obs(k, g), Obs(k, mutate(g)), Obs(k, g), Obs(k, live(k))], None)
  {
    var s2 := Reset(s1, k);
    OneReadScope<K, V, E>(s1, live, k, mutate);
    var prog: seq<Stmt<K, V, E>> := [Read(k), Scoped(k, mutate, [Read(k)]), Read(k), Uninstall(k), Read(k)];
    RunCons(s1, live, prog[0], prog[1..]);
    RunCons(s1, live, prog[1], prog[2..]);
    RunCons(s1, live, prog[2], prog[3..]);
    RunCons(s1, live, prog[3], prog[4..]);
    RunSingle(s2, live, prog[4]);
  }

  /** Resetting all prepared values brings back the live value of every
      key that had one. */
  lemma ResetAllClearsEveryPreparedValue<K(!new), V, E>(s: State<K, V>, live: K -> V, a: K, b: K, fa: V -> Result<V, E>, fb: V -> Result<V, E>)
    requires a != b && a !in s.local && b !in s.local
    requires fa(live(a)).Success? && fb(live(b)).Success?
    ensures var r := Run(s, live, [Install(a, fa), Install(b, fb), Read(a), Read(b), UninstallAll, Read(a), Read(b)]);
            && r.observed == [Obs(a, fa(live(a)).value), Obs(b, fb(live(b)).value), Obs(a, live(a)), Obs(b, live(b))]
            && r.error == None
            && r.state == State(s.local, map[])
  {
    var p: seq<Stmt<K, V, E>> := [Install(a, fa), Install(b, fb), Read(a), Read(b)];
    var q: seq<Stmt<K, V, E>> := [UninstallAll, Read(a), Read(b)];
    assert p + q == [Install(a, fa), Install(b, fb), Read(a), Read(b), UninstallAll, Read(a), Read(b)];
    var s2 := State(s.local, Set(Set(s.prepared, a, fa(live(a)).value), b, fb(live(b)).value));
    InstallTwoThenRead(s, live, a, b, fa, fb);
    ResetAllThenRead<K, V, E>(s2, live, a, b);
    RunAppend(s, live, p, q);
  }

  /** The first half of `ResetAllClearsEveryPreparedValue`: two prepares,
      then a read of each key yields its prepared value. */
  lemma InstallTwoThenRead<K(!new), V, E>(s: State<K, V>, live: K -> V, a: K, b: K, fa: V -> Result<V, E>, fb: V -> Result<V, E>)
    requires a != b && a !in s.local && b !in s.local
    requires fa(live(a)).Success? && fb(live(b)).Success?
    ensures var ga, gb := fa(live(a)).value, fb(live(b)).value;
            Run(s, live, [Install(a, fa), Install(b, fb), Read(a), Read(b)])
              == Step(State(s.local, Set(Set(s.prepared, a, ga), b, gb)), [Obs(a, ga), Obs(b, gb)], None)
  {
    var s1 := Prepare(s, live, a, fa).state;
    var s2 := Prepare(s1, live, b, fb).state;
    assert Current(s2, live, a) == fa(live(a)).value;
    assert Current(s2, live, b) == fb(live(b)).value;
    var prog: seq<Stmt<K, V, E>> := [Install(a, fa), Install(b, fb), Read(a), Read(b)];
    RunSingle(s2, live, prog[3]);
    RunCons(s2, live, prog[2], prog[3..]);
    RunCons(s1, live, prog[1], prog[2..]);
    RunCons(s, live, prog[0], prog[1..]);
  }

  /** The second half: after resetting every prepared value, keys without
      a task-local entry read their live values. */
  lemma ResetAllThenRead<K(!new), V, E>(s: State<K, V>, live: K -> V, a: K, b: K)
    requires a !in s.local && b !in s.local
    ensures Run<K, V, E>(s, live, [UninstallAll, Read(a), Read(b)])
              == Step(State(s.local, map[]), [Obs(a, live(a)), Obs(b, live(b))], None)
  {
    var s3 := ResetAll(s);
    assert s3 == State(s.local, map[]);
    var prog: seq<Stmt<K, V, E>> := [UninstallAll, Read(a), Read(b)];
    RunSingle(s3, live, prog[2]);
    RunCons(s3, live, prog[1], prog[2..]);
    RunCons(s, live, prog[0], prog[1..]);
  }

  /** A scope whose body throws still restores the snapshot: the error
      propagates, nothing after it runs, and the state is the one before
      the scope. */
  lemma ThrowingScopeRestores<K(!new), V, E>(s: State<K, V>, live: K -> V, k: K, mutate: V -> V, e: E, rest: seq<Stmt<K, V, E>>)
    ensures Run(s, live, [Scoped(k, mutate, [Read(k), Throw(e)])] + rest)
              == Step(s, [Obs(k, mutate(Current(s, live, k)))], Some(e))
  {
    var inner := Enter(s, live, k, mutate);
    var body: seq<Stmt<K, V, E>> := [Read(k), Throw(e)];
    RunCons(inner, live, Read(k), [Throw(e)]);
    RunSingle(inner, live, Throw(e));
    RunCons(s, live, Scoped(k, mutate, body), rest);
  }

  /** A prepare whose mutation throws writes nothing and skips the rest of
      the program. */
  lemma FailedPrepareWritesNothing<K(!new), V, E>(s: State<K, V>, live: K -> V, k: K, f: V -> Result<V, E>, rest: seq<Stmt<K, V, E>>)
    requires f(live(k)).Failure?
    ensures Run(s, live, [Install(k, f)] + rest) == Step(s, [], Some(f(live(k)).error))
  {
    RunCons(s, live, Install(k, f), rest);
  }

  /** A value prepared inside a scope outlives the scope, because the
      registry is global while the snapshot is restored. */
  lemma PreparedInsideScopePersists<K(!new), V, E>(s: State<K, V>, live: K -> V, k: K, mutate: V -> V, j: K, f: V -> Result<V, E>)
    requires j !in s.local
    requires f(live(j)).Success?
    ensures Run(s, live, [Scoped(k, mutate, [Install(j, f)]), Read(j)])
              == Step(State(s.local, Set(s.prepared, j, f(live(j)).value)), [Obs(j, f(live(j)).value)], None)
  {
    var inner := Enter(s, live, k, mutate);
    var body: seq<Stmt<K, V, E>> := [Install(j, f)];
    RunSingle(inner, live, Install(j, f));
    var after := State(s.local, Set(s.prepared, j, f(live(j)).value));
    assert Exec(s, live, Scoped(k, mutate, body)) == Step(after, [], None);
    RunCons(s, live, Scoped(k, mutate, body), [Read(j)]);
    RunSingle<K, V, E>(after, live, Read(j));
  }

  /** One scope and a read on each side of it: the override inside, the
      earlier value before and after. Values are opaque, so this covers a
      closure-valued field such as a formatter as well as a number. */
  lemma ScopedOverrideThenRestore<K(!new), V, E>(s: State<K, V>, live: K -> V, k: K, mutate: V -> V)
    ensures var b := Current(s, live, k);
            Run<K, V, E>(s, live, [Read(k), Scoped(k, mutate, [Read(k)]), Read(k)])
              == Step(s, [Obs(k, b), Obs(k, mutate(b)), Obs(k, b)], None)
  {
    var body: seq<Stmt<K, V, E>> := [Read(k)];
    OneReadScope<K, V, E>(s, live, k, mutate);
    RunCons<K, V, E>(s, live, Read(k), [Scoped(k, mutate, body), Read(k)]);
    RunCons<K, V, E>(s, live, Scoped(k, mutate, body), [Read(k)]);
    RunSingle<K, V, E>(s, live, Read(k));
  }

  /** A prepared value is read after the prepare returns, outside any
      scope; an async mutation ends in the same write. */
  lemma PreparedPersistsOutsideScope<K(!new), V, E>(s: State<K, V>, live: K -> V, k: K, f: V -> Result<V, E>)
    requires k !in s.local
    requires f(live(k)).Success?
    ensures var g := f(live(k)).value;
            Run(s, live, [Install(k, f), Read(k)])
              == Step(State(s.local, Set(s.prepared, k, g)), [Obs(k, g)], None)
  {
    var after := State(s.local, Set(s.prepared, k, f(live(k)).value));
    RunCons(s, live, Install(k, f), [Read(k)]);
    RunSingle<K, V, E>(after, live, Read(k));
  }

  /** A scope whose body is one read of its own key. */
  lemma OneReadScope<K(!new), V, E>(s: State<K, V>, live: K -> V, k: K, mutate: V -> V)
    ensures Exec<K, V, E>(s, live, Scoped(k, mutate, [Read(k)])) == Step(s, [Obs(k, mutate(Current(s, live, k)))], None)
  {
    RunSingle<K, V, E>(Enter(s, live, k, mutate), live, Read(k));
    ExecScoped<K, V, E>(s, live, k, mutate, [Read(k)]);
  }
}

=== FILE: task_env.dfy ===
/** The override operations of one task.

    A task's view of the environment is a `State`: its own task-local
    snapshot, which no other task can see or change, and the prepared
    registry, which is process-wide. Every operation here is a pure function
    from the state before to the state after; the task-local binding of
    Swift (`@TaskLocal`, `withValue`) becomes an explicit snapshot that a
    scope replaces for its body and puts back when the body ends.

    The operations exist only in a debug build, so every read made through
    them is a debug-build read.
 */
module TaskEnv {
  import opened Wrappers
  import opened EnvRegistry
  import opened Resolution

  /** What one task sees: its task-local snapshot and the global registry. */
  datatype State<K, V> = State(local: map<K, V>, prepared: map<K, V>)

  /** One read made by a task: the key read and the value it yielded. */
  datatype Obs<K, V> = Obs(key: K, value: V)

  /** The end of a (possibly throwing) operation: the state it leaves, the
      reads it made in order, and the error it threw, if any. */
  datatype Step<K, V, E> = Step(state: State<K, V>, observed: seq<Obs<K, V>>, error: Option<E>)

  /** `currentTaskIsolatedEnv(type)` made from a task in state `s`: the
      task's own entry if it has one, else the prepared entry, else the
      live value. */
  function Current<K(!new), V>(s: State<K, V>, live: K -> V, k: K): (r: V)
    ensures k in s.local ==> r == s.local[k]
    ensures k !in s.local ==> r == Lookup(s.prepared, k).GetOr(live(k))
  {
    Resolve(true, s.local, s.prepared, live, k)
  }

  /** The state a scope's body runs in: the current value of `k` is
      resolved through the whole chain, `mutate` is applied to it, and the
      snapshot is copied with the entry for `k` replaced. */
  function Enter<K(!new), V>(s: State<K, V>, live: K -> V, k: K, mutate: V -> V): (r: State<K, V>)
    ensures r.prepared == s.prepared
    ensures Lookup(r.local, k) == Some(mutate(Current(s, live, k)))
    ensures forall j :: j != k ==> Lookup(r.local, j) == Lookup(s.local, j)
  {
    State(Set(s.local, k, mutate(Current(s, live, k))), s.prepared)
  }

  /** `withTaskIsolatedEnv(type, override: mutate, operation: body)`.
      The body runs in the entered state. Whether it returns or throws, the
      snapshot in force afterwards is the one in force before the call, so
      every key reads as it did before entry unless the body changed that
      key's prepared entry (the registry is global, so such writes stay)
      while the task had no local entry for it. Every registry write of the
      body persists, shadowed or not: a task without the caller's snapshot
      (a detached one) reads exactly the registry the body left. The
      body's error, if any, is rethrown. */
  function WithEnv<K(!new), V, E>(s: State<K, V>, live: K -> V, k: K, mutate: V -> V,
                                  body: State<K, V> -> Step<K, V, E>): (r: Step<K, V, E>)
    ensures r.state.local == s.local
    ensures forall j :: (j in s.local || Lookup(r.state.prepared, j) == Lookup(s.prepared, j)) ==>
                          Current(r.state, live, j) == Current(s, live, j)
    ensures forall j :: j !in s.local ==>
                          Current(r.state, live, j) == Lookup(body(Enter(s, live, k, mutate)).state.prepared, j).GetOr(live(j))
    ensures forall j :: Current(Detached(r.state), live, j) == Current(Detached(body(Enter(s, live, k, mutate)).state), live, j)
    ensures r.error == body(Enter(s, live, k, mutate)).error
  {
    var inner := body(Enter(s, live, k, mutate));
    Step(State(s.local, inner.state.prepared), inner.observed, inner.error)
  }

  /** `prepareTaskIsolatedEnv(type, override: mutate)`. The base is always
      the live value. On success the prepared entry for `k` becomes the
      mutated value and no other entry changes; if `mutate` throws, the
      error propagates and nothing is written. */
  function Prepare<K(!new), V, E>(s: State<K, V>, live: K -> V, k: K, mutate: V -> Result<V, E>): (r: Step<K, V, E>)
    ensures r.state.local == s.local
    ensures r.observed == []
    ensures mutate(live(k)).Success? ==>
              && r.error == None
              && Lookup(r.state.prepared, k) == Some(mutate(live(k)).value)
              && forall j :: j != k ==> Lookup(r.state.prepared, j) == Lookup(s.prepared, j)
    ensures mutate(live(k)).Failure? ==>
              r.error == Some(mutate(live(k)).error) && r.state == s
  {
    match mutate(live(k))
    case Success(v) => Step(State(s.local, Set(s.prepared, k, v)), [], None)
    case Failure(e) => Step(s, [], Some(e))
  }

  /** `resetPreparedTaskIsolatedEnv(type)`: the prepared entry for `k` is
      removed (nothing happens if there is none); the snapshot is untouched. */
  function Reset<K(!new), V>(s: State<K, V>, k: K): (r: State<K, V>)
    ensures r.local == s.local
    ensures Lookup(r.prepared, k) == None
    ensures forall j :: j != k ==> Lookup(r.prepared, j) == Lookup(s.prepared, j)
    ensures k !in s.prepared ==> r == s
  {
    State(s.local, Remove(s.prepared, k))
  }

  /** `resetPreparedTaskIsolatedEnvs()`: every prepared entry is removed;
      the snapshot is untouched. */
  function ResetAll<K(!new), V>(s: State<K, V>): (r: State<K, V>)
    ensures r.local == s.local
    ensures forall j :: Lookup(r.prepared, j) == None
  {
    State(s.local, RemoveAll(s.prepared))
  }

  /** The state a structured child task (`Task { ... }`) starts in: it
      inherits the parent's snapshot as a copy and shares the registry. */
  function Child<K, V>(parent: State<K, V>): State<K, V>
  {
    parent
  }

  /** The state a detached task (`Task.detached { ... }`) starts in: the
      task-local default, an empty snapshot, and the shared registry. */
  function Detached<K(!new), V>(parent: State<K, V>): (r: State<K, V>)
    ensures forall j :: Lookup(r.local, j) == None
    ensures r.prepared == parent.prepared
  {
    State(map[], parent.prepared)
  }

  /** Awaiting a task spawned from `parent` that ended in `child`.
      The parent keeps its own snapshot, whatever the task did; the task's
      registry writes are global and stay; its reads and error are passed
      to the awaiting parent. */
  function Join<K, V, E>(parent: State<K, V>, child: Step<K, V, E>): Step<K, V, E>
  {
    Step(State(parent.local, child.state.prepared), child.observed, child.error)
  }

  /** After awaiting a spawned task, the parent's own entries still win,
      and for every other key the parent reads what the task left in the
      registry. */
  lemma JoinKeepsParentView<K(!new), V, E>(parent: State<K, V>, child: Step<K, V, E>, live: K -> V, j: K)
    ensures j in parent.local ==> Current(Join(parent, child).state, live, j) == parent.local[j]
    ensures j !in parent.local ==>
              Current(Join(parent, child).state, live, j) == Lookup(child.state.prepared, j).GetOr(live(j))
  {
  }

  /** Inside a scope for `k`, a read of `k` yields `mutate` applied to the
      value a read of `k` yielded just before entry, whichever layer that
      value came from. */
  lemma EnterResolvesMutatedBase<K(!new), V>(s: State<K, V>, live: K -> V, k: K, mutate: V -> V)
    ensures Current(Enter(s, live, k, mutate), live, k) == mutate(Current(s, live, k))
  {
  }

  /** Entering a scope for `k` leaves every other key reading as before. */
  lemma EnterIsolatesOtherKeys<K(!new), V>(s: State<K, V>, live: K -> V, k: K, mutate: V -> V, j: K)
    requires j != k
    ensures Current(Enter(s, live, k, mutate), live, j) == Current(s, live, j)
  {
  }

  /** While a scope for `k` is active, writes to the prepared registry by
      any task, in any order, cannot change what a read of `k` yields. */
  lemma EnterShieldsFromRegistry<K(!new), V>(s: State<K, V>, live: K -> V, k: K, mutate: V -> V, other: map<K, V>)
    ensures Current(State(Enter(s, live, k, mutate).local, other), live, k) == mutate(Current(s, live, k))
  {
  }

  /** The base of a prepared value is the live value only: two states whose
      registries agree except at `k` end with the same registry, whatever
      their snapshots or earlier entries for `k` hold. */
  lemma PrepareIgnoresCurrentValue<K(!new), V, E>(s: State<K, V>, t: State<K, V>, live: K -> V, k: K, mutate: V -> Result<V, E>)
    requires forall j :: j != k ==> Lookup(s.prepared, j) == Lookup(t.prepared, j)
    ensures Prepare(s, live, k, mutate).error == Prepare(t, live, k, mutate).error
    ensures mutate(live(k)).Success? ==>
              Prepare(s, live, k, mutate).state.prepared == Prepare(t, live, k, mutate).state.prepared
  {
    if mutate(live(k)).Success? {
      var a := Prepare(s, live, k, mutate).state.prepared;
      var b := Prepare(t, live, k, mutate).state.prepared;
      forall j ensures Lookup(a, j) == Lookup(b, j) {
      }
      LookupExtensional(a, b);
    }
  }

  /** After a successful prepare, a task without a local entry for `k`
      reads the prepared value; a task with one still reads its own. */
  lemma PrepareThenRead<K(!new), V, E>(s: State<K, V>, live: K -> V, k: K, mutate: V -> Result<V, E>)
    requires mutate(live(k)).Success?
    ensures k !in s.local ==> Current(Prepare(s, live, k, mutate).state, live, k) == mutate(live(k)).value
    ensures k in s.local ==> Current(Prepare(s, live, k, mutate).state, live, k) == s.local[k]
  {
  }

  /** After a reset of `k`, a task without a local entry for `k` reads the
      live value again; other keys read as before. */
  lemma ResetFallsBackToLive<K(!new), V>(s: State<K, V>, live: K -> V, k: K, j: K)
    ensures k !in s.local ==> Current(Reset(s, k), live, k) == live(k)
    ensures j != k ==> Current(Reset(s, k), live, j) == Current(s, live, j)
  {
  }

  /** After resetting every prepared entry, every key without a local entry
      reads its live value. */
  lemma ResetAllFallsBackToLive<K(!new), V>(s: State<K, V>, live: K -> V, k: K)
    ensures k !in s.local ==> Current(ResetAll(s), live, k) == live(k)
    ensures k in s.local ==> Current(ResetAll(s), live, k) == s.local[k]
  {
  }

  /** A structured child reads every key exactly as its parent does. */
  lemma ChildSeesParentView<K(!new), V>(parent: State<K, V>, live: K -> V, k: K)
    ensures Current(Child(parent), live, k) == Current(parent, live, k)
  {
  }

  /** A detached task never sees a task-local override: it reads the
      prepared entry if there is one and the live value otherwise, so two
      parents that share a registry give their detached tasks the same view
      whatever their snapshots. */
  lemma DetachedSeesOnlyGlobal<K(!new), V>(p1: State<K, V>, p2: State<K, V>, live: K -> V, k: K)
    requires p1.prepared == p2.prepared
    ensures Current(Detached(p1), live, k) == Lookup(p1.prepared, k).GetOr(live(k))
    ensures Current(Detached(p1), live, k) == Current(Detached(p2), live, k)
  {
  }
}

=== FILE: wrappers.dfy ===
/** Optional and throwing-call wrappers shared by the whole model.
    - Option<T> stands for a Swift optional (`Env?`).
    - Result<T, E> stands for a throwing call: it either returns a value or
      throws an error of type E.
 */
module Wrappers {

  /** A value that may be absent. */
  datatype Option<+T> = None | Some(value: T) {

    /** The wrapped value, or `default` when there is none (Swift's `??`). */
    function GetOr(default: T): T {
      match this
      case Some(v) => v
      case None => default
    }
  }

  /** The outcome of a call that may throw. */
  datatype Result<+T, +E> = Success(value: T) | Failure(error: E)
}
